=== FILE: README.md ===
# object-to-sql: a Dafny model of the `Query` translator

`object-to-sql.js` turns a plain description object into a parameterised SQL
statement for the `mysql` package. The constructor of its `Query` class reads
`queryType[0]` and runs one statement builder: SELECT, INSERT, UPDATE, DROP,
DELETE or CREATE. The builder fills in three fields:

- `sqlQuery`, the statement text, where every bound value is written as `?`;
- `values`, the values bound to those placeholders;
- `isValid`, which only SELECT, INSERT and UPDATE set, and only when their
  build reaches its end.

The clause builders for WHERE, ORDER BY and LIMIT, and the list formatter
`surroundArrayWithBraces`, produce the pieces the statements are made of.

The model is split into five modules:

- `Strings`: counting a character, `Join` (one separator between neighbours)
  and `Weave` (a separator of its own for every gap).
- `QueryModel`: the description object, the resulting `Translation`
  (`sqlQuery`, `values`, `isValid`) and the shape conditions under which the
  builders only read entries that exist.
- `Clauses`: `surroundArrayWithBraces`, the comma-terminated list written
  by UPDATE's SET loop and by ORDER BY, and the WHERE, ORDER BY and LIMIT
  clause builders.
- `Statements`: the six statement builders.
- `Translator`: the constructor's dispatch, plus the properties of a whole
  translation.

The loops that append to a text (the braces formatter, the SET list, ORDER
BY and both WHERE loops) are written as recursive functions over the loop
index. A lemma then proves the closed form each amounts to: a `Join` of the
entries for the list loops, and a `Weave` of rendered predicates and their
logical operators for the WHERE loops. The loops that only build an array
are written differently. UPDATE's `col=?` entries and CREATE's column
definitions are sequence comprehensions. INSERT's scan for array elements
recurses over the remaining suffix of `insert.values`.

A builder that throws is modelled by what its `try` block leaves behind: the
text and values built up to the throwing statement, with `isValid` still
false. `prepareConditionSubQuery` rethrows its failure as the string
`Failed to prepare the condition subquery`. It is modelled as a `Result`
that carries that message.

The whole-translation properties are:

- `isValid` is set exactly when a SELECT, INSERT or UPDATE build completes.
- Every statement carries as many `?` placeholders as it has top-level bound
  values. This assumes the caller's names contain no `?` and that one value
  is supplied per placeholder. It also holds on the failure paths that this
  assumption admits: a missing statement object, a missing `insert.values`,
  and DELETE without a condition. When `condition.values` or `update.values`
  is missing, spreading it throws after the `?`s are already in the text, so
  the text keeps its `?`s while no value of the missing array is bound. An
  UPDATE whose condition lacks `values` keeps the SET values it pushed before
  the condition's spread threw.
- The bound values never reach the text. Two descriptions that differ only
  in their values give the same text and the same validity.

Three behaviours of the code worth knowing:

- DELETE with no condition still produces a statement, `DELETE FROM <table>`.
  It binds no value and stays invalid, because the WHERE builder's throw is
  caught.
- INSERT wraps its bound values in one array of rows. When exactly one
  element of `insert.values` is an array, that array is the only row and the
  other elements are dropped. Otherwise the array elements are kept and a
  copy of the whole `values` array is appended as a further row.
- `surroundArrayWithBraces` on an empty array gives `(` with no closing
  parenthesis, because its loop never runs. `CREATE TABLE t (` is what a
  CREATE with no columns produces.

## Model

| member | source | states |
|---|---|---|
| Clauses.Braces | object-to-sql.js:331-343 | The list in parentheses, its items separated by `", "`; a single item is just parenthesised; an empty list yields a lone `(` |
| Clauses.BracesSeparators | object-to-sql.js:334-337 | Comma-free items produce exactly one comma per gap, so no stray comma follows the last item |
| Clauses.BracesUnmarked | object-to-sql.js:331-343 | The formatter adds no `?` of its own |
| Clauses.SpacedList | object-to-sql.js:173-176 | The SET loop's output is the entries each after a space, joined by `", "`; nothing when there are no entries |
| Clauses.SpacedListCommas | object-to-sql.js:173-176 | A list of comma-free entries holds one comma per gap |
| Clauses.SpacedListCount | object-to-sql.js:173-176 | Every other character in the list comes from an entry |
| Clauses.Order | object-to-sql.js:289-307 | `ORDER BY`, then each column with its direction (when given and non-empty) after a space, joined by `", "` |
| Clauses.OrderSeparators | object-to-sql.js:292-301 | K comma-free columns give exactly K-1 commas: a comma after every column but the last |
| Clauses.OrderUnmarked | object-to-sql.js:289-307 | ORDER BY binds nothing: it holds no `?` when its columns and directions hold none |
| Clauses.Limit | object-to-sql.js:314-324 | `LIMIT ` followed by the count verbatim, adding no placeholder |
| Clauses.PredicatesWoven | object-to-sql.js:259-275 | The outer WHERE loop from element i on equals the rendered elements woven with their joints: a logical operator between neighbours and none after the last |
| Clauses.GroupPredicatesWoven | object-to-sql.js:266-273 | The inner loop renders a group as its predicates joined by the group's logical operators, then ` )`, then the group's last logical operator unless it is the last element |
| Clauses.Where | object-to-sql.js:256-281 | Fails with the condition-subquery message exactly when the condition or its columns are missing; otherwise yields `WHERE` and the woven predicates |
| Clauses.PredicatesCount | object-to-sql.js:259-275 | The loop from element i on writes one `?` per leaf column, flat or grouped |
| Clauses.WherePlaceholders | object-to-sql.js:258-276 | The WHERE clause holds exactly one `?` per leaf column |
| Statements.Select | object-to-sql.js:107-123 | Valid exactly when `select` exists and a given condition has values; it binds the condition's values; without `select` the text stops at `SELECT *` |
| Statements.SelectText | object-to-sql.js:109-118 | A completed SELECT is the column list or `*`, `FROM` and the table, then the woven WHERE predicates and the ORDER BY clause exactly when their columns are given |
| Statements.ArrayElements | object-to-sql.js:143-147 | The scan keeps exactly the array elements: a one-element list keeps its element exactly when it is an array; all of them when every element is an array, none when none is |
| Statements.ArrayElementsConcat | object-to-sql.js:143-147 | The scan distributes over concatenation, so each array element is kept once per occurrence, in order, duplicates included |
| Statements.Insert | object-to-sql.js:129-156 | Valid exactly when `insert` and its `values` exist; it binds a single array of rows; without `insert` the text is `INSERT INTO` |
| Statements.InsertRows | object-to-sql.js:141-151 | The row list is `[values]` for flat values, the one array when exactly one element is an array, and otherwise the array elements followed by a copy of `values` |
| Statements.InsertText | object-to-sql.js:131-139 | The INSERT text is `INSERT INTO` and the table, the column list directly after the table with no space, then ` VALUES ?` |
| Statements.Update | object-to-sql.js:162-190 | Valid exactly when `update` and its values exist and a given condition has values; it binds the SET values, then the condition's; when the condition's part throws, the SET values stay bound |
| Statements.UpdateText | object-to-sql.js:164-185 | A completed UPDATE is `UPDATE t SET`, the `col=?` assignments joined by `", "`, then the woven WHERE predicates and the LIMIT clause exactly when given |
| Statements.Drop | object-to-sql.js:196-203 | Never valid and binds nothing; the text is `DROP <table>`, or `DROP` when `drop` is missing |
| Statements.Delete | object-to-sql.js:210-219 | Never valid; binds the condition's values when it has any; the text is `DELETE FROM <table>`, plus the WHERE clause exactly when the condition has columns |
| Statements.Create | object-to-sql.js:226-245 | Never valid and binds nothing; the text is the table, then the parenthesised `column type [constraint]` definitions |
| Translator.Translate | object-to-sql.js:58-86 | No input or an unhandled query type leaves the fresh instance untouched; only SELECT, INSERT and UPDATE can be valid |
| Translator.ValidExactlyWhenCompleted | object-to-sql.js:58-86 | `isValid` holds exactly when a SELECT, INSERT or UPDATE build runs to its end without throwing |
| Translator.SelectCount | object-to-sql.js:107-123 | SELECT holds as many `?` as it binds values |
| Translator.InsertCount | object-to-sql.js:129-156 | INSERT holds one `?` for its one array of rows |
| Translator.UpdateCount | object-to-sql.js:162-190 | UPDATE holds one `?` per SET column and per leaf condition column, matching its values |
| Translator.DeleteCount | object-to-sql.js:210-219 | DELETE holds as many `?` as it binds values |
| Translator.CreateCount | object-to-sql.js:226-245 | CREATE holds no `?` |
| Translator.PlaceholdersMatchValues | object-to-sql.js:58-86 | For every query type, the number of `?` in the text equals the number of bound values, when one value is supplied per placeholder (so also on the failure paths that assumption admits) |
| Translator.MissingValuesKeepPlaceholders | object-to-sql.js:114-117 | A SELECT whose condition has no `values` keeps one `?` per leaf column in its text yet binds nothing and stays invalid |
| Translator.ConditionUnread | object-to-sql.js:58-86 | DROP, INSERT and CREATE never read the condition: any condition, whatever its shape, leaves their translation unchanged |
| Translator.BoundValuesStayOutOfText | object-to-sql.js:58-86 | Descriptions differing only in bound values give the same text and the same validity |

## Left out

- `console.log` in every `catch` block is left out: it only writes to the console.
- The failure mechanics of the other throwing helpers are left out. The ORDER BY, LIMIT and braces builders only throw on input shapes the model excludes.
- `getSQLQuery` and `module.exports` are left out. The first only reads a field; the second is module plumbing.
- A missing `queryType` is left out. `queryType[0]` would then throw out of the constructor itself, and that throw is not caught.
- Missing `condition.operators`, `condition.logicalOperators`, `update.columns`, `create.columns` and `create.types` are left out. They are plain sequences. A missing `update.columns` behaves like an empty one in the source, since `for…in` over `undefined` runs zero times. The other missing arrays make a builder throw only once its loop touches them: `create.columns` at its first length test, the others at the first entry read, so a condition made of a single flat column or a single one-column group needs no `logicalOperators` and a CREATE with no columns needs no `types`.
- Input shapes that JavaScript would coerce to text are excluded by `WellFormed`, but only in the sub-objects the selected builder reads. These are `undefined` entries and arrays where strings are expected. For SELECT, UPDATE and DELETE the condition's `operators` and `logicalOperators` must both nest like its columns; for CREATE there must be a type for every column. A DROP, INSERT or CREATE carrying a malformed condition is covered, and `ConditionUnread` shows the condition does not affect it.
- Singleton arrays (`table`, `queryType`, `limit.count`) are modelled as their first element. `drop.table` and `delete.table`, which the source writes out whole (array-to-string), are modelled as single strings.
- An empty `limit.count` array, which would print `LIMIT undefined`, is left out.
- Reuse of a `Query` instance is left out. UPDATE and CREATE append with `+=`, and the model starts from a fresh instance, where `+=` and `=` coincide.
- Values are opaque literals. Their JavaScript types matter only to `Array.isArray`, which is modelled by the `Scalar`/`Row` split. Spreading a string into characters is not modelled.

=== FILE: clauses.dfy ===
/**
  The clause builders of `Query` (WHERE, ORDER BY, LIMIT) and its list
  formatter `surroundArrayWithBraces`.

  Each loop of the source is mirrored by a function over the loop index that
  returns what iterations `i..` append; lemmas prove the closed form the loop
  amounts to (a `Join` or a `Weave` of the rendered pieces) and count the
  `?` placeholders and separators it emits.
 */
module Clauses {
  import opened Strings
  import opened QueryModel

  // ---------------------------------------------------------------------
  // surroundArrayWithBraces
  // ---------------------------------------------------------------------

  /** What iterations `i..` of the formatter's loop append: each element,
      then `", "`, or `")"` after the last one. */
  function BracesFrom(items: seq<string>, i: nat): string
    requires i <= |items|
    decreases |items| - i
  {
    if i == |items| then ""
    else items[i] + (if i != |items| - 1 then ", " else ")") + BracesFrom(items, i + 1)
  }

  lemma {:induction false} BracesFromJoin(items: seq<string>, i: nat)
    requires i < |items|
    ensures BracesFrom(items, i) == Join(items[i..], ", ") + ")"
    decreases |items| - i
  {
    if i == |items| - 1 {
      assert items[i..] == [items[i]];
    } else {
      BracesFromJoin(items, i + 1);
      assert items[i..][1..] == items[i + 1..];
    }
  }

  /** `surroundArrayWithBraces`: the parenthesised, comma-separated list. An
      empty array gets only the opening parenthesis, as the loop never runs. */
  function Braces(items: seq<string>): (r: string)
    ensures |items| == 0 ==> r == "("
    ensures |items| > 0 ==> r == "(" + Join(items, ", ") + ")"
    ensures |items| == 1 ==> r == "(" + items[0] + ")"
  {
    if |items| == 0 then "(" + BracesFrom(items, 0)
    else
      BracesFromJoin(items, 0);
      assert items[0..] == items;
      "(" + BracesFrom(items, 0)
  }

  /** A non-empty list of comma-free items gets one separator per gap. */
  lemma BracesSeparators(items: seq<string>)
    requires |items| >= 1
    requires Free(items, ',')
    ensures Count(Braces(items), ',') == |items| - 1
  {
    var j := Join(items, ", ");
    JoinCount(items, ", ", ',');
    TotalAbsent(items, ',');
    assert Count(", ", ',') == 1 by {
      assert (", ")[1..] == " ";
      CountNone(" ", ',');
    }
    CountConcat("(", j, ',');
    CountConcat("(" + j, ")", ',');
    CountNone("(", ',');
    CountNone(")", ',');
  }

  /** The formatter adds no placeholder of its own. */
  lemma BracesUnmarked(items: seq<string>)
    requires Free(items, '?')
    ensures Count(Braces(items), '?') == 0
  {
    CountNone("(", '?');
    if |items| > 0 {
      var j := Join(items, ", ");
      JoinCount(items, ", ", '?');
      TotalAbsent(items, '?');
      CountNone(", ", '?');
      CountNone(")", '?');
      CountConcat("(", j, '?');
      CountConcat("(" + j, ")", '?');
    }
  }

  lemma BracesClean(items: seq<string>)
    requires Free(items, '?')
    ensures '?' !in Braces(items)
  {
    var b := Braces(items);
    BracesUnmarked(items);
    CountAbsent(b, '?');
  }

  // ---------------------------------------------------------------------
  // The comma-terminated list shared by ORDER BY and UPDATE ... SET
  // ---------------------------------------------------------------------

  /** What iterations `i..` append: `" " + entry`, then `","` unless it is
      the last entry. */
  function SpacedFrom(entries: seq<string>, i: nat): string
    requires i <= |entries|
    decreases |entries| - i
  {
    if i == |entries| then ""
    else " " + entries[i] + (if i != |entries| - 1 then "," else "") + SpacedFrom(entries, i + 1)
  }

  lemma {:induction false} SpacedFromJoin(entries: seq<string>, i: nat)
    requires i < |entries|
    ensures SpacedFrom(entries, i) == " " + Join(entries[i..], ", ")
    decreases |entries| - i
  {
    if i == |entries| - 1 {
      assert entries[i..] == [entries[i]];
    } else {
      SpacedFromJoin(entries, i + 1);
      assert entries[i..][1..] == entries[i + 1..];
    }
  }

  /** The entries, each after a space, with a comma after every entry but
      the last. */
  function SpacedList(entries: seq<string>): (r: string)
    ensures |entries| == 0 ==> r == ""
    ensures |entries| > 0 ==> r == " " + Join(entries, ", ")
  {
    if |entries| == 0 then SpacedFrom(entries, 0)
    else
      SpacedFromJoin(entries, 0);
      assert entries[0..] == entries;
      SpacedFrom(entries, 0)
  }

  /** A non-empty list of comma-free entries holds one comma per gap. */
  lemma SpacedListCommas(entries: seq<string>)
    requires |entries| >= 1
    requires Free(entries, ',')
    ensures Count(SpacedList(entries), ',') == |entries| - 1
  {
    JoinCount(entries, ", ", ',');
    TotalAbsent(entries, ',');
    assert Count(", ", ',') == 1 by {
      assert (", ")[1..] == " ";
      CountNone(" ", ',');
    }
    CountNone(" ", ',');
    CountConcat(" ", Join(entries, ", "), ',');
  }

  /** Every occurrence of `c` in the list comes from an entry (`c` is
      neither a space nor a comma). */
  lemma SpacedListCount(entries: seq<string>, c: char)
    requires c != ' ' && c != ','
    ensures Count(SpacedList(entries), c) == Total(entries, c)
  {
    if |entries| > 0 {
      JoinCount(entries, ", ", c);
      CountNone(", ", c);
      CountNone(" ", c);
      CountConcat(" ", Join(entries, ", "), c);
    }
  }

  // ---------------------------------------------------------------------
  // prepareOrderSubQuery
  // ---------------------------------------------------------------------

  /** `" " + ws[i]` when the optional array `ws` exists and its entry `i`
      is a non-empty (truthy) string; otherwise nothing. Used for
      `order.directions` and `create.constrains`. */
  function Suffix(ws: Option<seq<string>>, i: nat): string
  {
    if ws.Some? && i < |ws.value| && ws.value[i] != "" then " " + ws.value[i] else ""
  }

  function OrderEntries(cols: seq<string>, dirs: Option<seq<string>>): seq<string>
  {
    seq(|cols|, i requires 0 <= i < |cols| => cols[i] + Suffix(dirs, i))
  }

  /** `prepareOrderSubQuery`, given `order.columns` and `order.directions`. */
  function Order(cols: seq<string>, dirs: Option<seq<string>>): (r: string)
    ensures |cols| == 0 ==> r == "ORDER BY"
    ensures |cols| > 0 ==> r == "ORDER BY " + Join(OrderEntries(cols, dirs), ", ")
  {
    "ORDER BY" + SpacedList(OrderEntries(cols, dirs))
  }

  /** With K >= 1 comma-free columns and directions the clause holds exactly
      K - 1 commas: one between neighbours, none after the last entry. */
  lemma OrderSeparators(cols: seq<string>, dirs: Option<seq<string>>)
    requires |cols| >= 1
    requires Free(cols, ',')
    requires dirs.Some? ==> Free(dirs.value, ',')
    ensures Count(Order(cols, dirs), ',') == |cols| - 1
  {
    var es := OrderEntries(cols, dirs);
    forall k | 0 <= k < |es|
      ensures ',' !in es[k]
    {
      assert es[k] == cols[k] + Suffix(dirs, k);
    }
    SpacedListCommas(es);
    CountNone("ORDER BY", ',');
    CountConcat("ORDER BY", SpacedList(es), ',');
  }

  /** ORDER BY adds no placeholder: every `?` in it comes from a column or a
      direction. */
  lemma OrderUnmarked(cols: seq<string>, dirs: Option<seq<string>>)
    requires Free(cols, '?')
    requires dirs.Some? ==> Free(dirs.value, '?')
    ensures Count(Order(cols, dirs), '?') == 0
  {
    var es := OrderEntries(cols, dirs);
    forall k | 0 <= k < |es|
      ensures '?' !in es[k]
    {
      assert es[k] == cols[k] + Suffix(dirs, k);
    }
    SpacedListCount(es, '?');
    TotalAbsent(es, '?');
    CountNone("ORDER BY", '?');
    CountConcat("ORDER BY", SpacedList(es), '?');
  }

  // ---------------------------------------------------------------------
  // prepareLimitSubQuery
  // ---------------------------------------------------------------------

  /** `prepareLimitSubQuery`: the count is written into the text verbatim;
      the clause adds no placeholder of its own. */
  function Limit(count: string): (r: string)
    ensures |r| == 6 + |count| && r[..6] == "LIMIT " && r[6..] == count
    ensures Count(r, '?') == Count(count, '?')
  {
    var r := "LIMIT " + count;
    CountConcat("LIMIT ", count, '?');
    CountNone("LIMIT ", '?');
    assert r[6..] == count;
    r
  }

  // ---------------------------------------------------------------------
  // prepareConditionSubQuery
  // ---------------------------------------------------------------------

  const ConditionFailure := "Failed to prepare the condition subquery"

  /** One predicate: column, operator, placeholder. */
  function Predicate(col: string, op: string): string
  {
    col + " " + op + " ?"
  }

  /** What iterations `j..` of the inner loop append for a group with
      columns `ns`, operators `os` and logical operators `ls`; `lastTop`
      tells whether the group is the last element of the condition. */
  function GroupPredicates(ns: seq<string>, os: seq<string>, ls: seq<string>, j: nat, lastTop: bool): string
    requires j <= |ns|
    decreases |ns| - j
  {
    if j == |ns| then ""
    else
      " " + Predicate(ns[j], WordAt(os, j))
      + (if j != |ns| - 1 then " " + WordAt(ls, j)
         else " )" + (if !lastTop then " " + WordAt(ls, j) else ""))
      + GroupPredicates(ns, os, ls, j + 1, lastTop)
  }

  /** What iterations `i..` of the outer loop append. */
  function Predicates(cols: seq<Nested>, ops: seq<Nested>, links: seq<Nested>, i: nat): string
    requires i <= |cols|
    decreases |cols| - i
  {
    if i == |cols| then ""
    else
      var last := i == |cols| - 1;
      var here :=
        match cols[i]
        case Leaf(c) => " " + Predicate(c, Word(ops, i)) + (if !last then " " + Word(links, i) else "")
        case Group(ns) => " (" + GroupPredicates(ns, Words(ops, i), Words(links, i), 0, last);
      here + Predicates(cols, ops, links, i + 1)
  }

  // The closed form: the rendered elements woven with their joints.

  function GroupParts(ns: seq<string>, os: seq<string>): seq<string>
  {
    seq(|ns|, j requires 0 <= j < |ns| => Predicate(ns[j], WordAt(os, j)))
  }

  function GroupJoints(ls: seq<string>, gaps: nat): seq<string>
  {
    seq(gaps, j requires 0 <= j < gaps => " " + WordAt(ls, j) + " ")
  }

  /** Element `i` of the condition on its own: a predicate, or a
      parenthesised group of predicates joined by the group's logical
      operators. An empty group renders as a lone `(`. */
  function Render(cols: seq<Nested>, ops: seq<Nested>, links: seq<Nested>, i: nat): string
    requires i < |cols|
  {
    match cols[i]
    case Leaf(c) => Predicate(c, Word(ops, i))
    case Group(ns) =>
      if |ns| == 0 then "("
      else "( " + Weave(GroupParts(ns, Words(ops, i)), GroupJoints(Words(links, i), |ns| - 1)) + " )"
  }

  /** The logical operator that follows element `i` when a successor
      exists, after a space: `logicalOperators[i]` for a flat element, the
      entry at the group's last index for a group, nothing after an empty
      group. */
  function Link(cols: seq<Nested>, links: seq<Nested>, i: nat): string
    requires i < |cols|
  {
    match cols[i]
    case Leaf(_) => " " + Word(links, i)
    case Group(ns) => if |ns| == 0 then "" else " " + WordAt(Words(links, i), |ns| - 1)
  }

  /** What separates element `i` from element `i + 1`. */
  function Joint(cols: seq<Nested>, links: seq<Nested>, i: nat): string
    requires i < |cols|
  {
    Link(cols, links, i) + " "
  }

  function Renders(cols: seq<Nested>, ops: seq<Nested>, links: seq<Nested>): seq<string>
  {
    seq(|cols|, i requires 0 <= i < |cols| => Render(cols, ops, links, i))
  }

  function Joints(cols: seq<Nested>, links: seq<Nested>): seq<string>
    requires |cols| > 0
  {
    seq(|cols| - 1, i requires 0 <= i < |cols| - 1 => Joint(cols, links, i))
  }

  /** The WHERE clause as a reader states it: `WHERE`, then the elements in
      order with a joint between neighbours and nothing after the last. */
  function Woven(cols: seq<Nested>, ops: seq<Nested>, links: seq<Nested>): string
  {
    if |cols| == 0 then "WHERE"
    else "WHERE " + Weave(Renders(cols, ops, links), Joints(cols, links))
  }

  lemma GroupPartsAt(ns: seq<string>, os: seq<string>, ls: seq<string>, j: nat)
    requires j < |ns|
    ensures |GroupParts(ns, os)| == |ns| && GroupParts(ns, os)[j] == Predicate(ns[j], WordAt(os, j))
    ensures |GroupJoints(ls, |ns| - 1)| == |ns| - 1
    ensures j < |ns| - 1 ==> GroupJoints(ls, |ns| - 1)[j] == " " + WordAt(ls, j) + " "
  {
  }

  lemma GroupStep(here: string, next: string, p: string, l: string, w: string, tail: string)
    requires here == " " + p + (" " + l) + next
    requires next == " " + w + tail
    ensures here == " " + (p + (" " + l + " ") + w) + tail
  {
  }

  lemma {:induction false} GroupPredicatesWoven(ns: seq<string>, os: seq<string>, ls: seq<string>, j: nat, lastTop: bool)
    requires j < |ns|
    ensures GroupPredicates(ns, os, ls, j, lastTop)
         == " " + Weave(GroupParts(ns, os)[j..], GroupJoints(ls, |ns| - 1)[j..])
            + (" )" + (if lastTop then "" else " " + WordAt(ls, |ns| - 1)))
    decreases |ns| - j
  {
    var parts := GroupParts(ns, os);
    var seps := GroupJoints(ls, |ns| - 1);
    GroupPartsAt(ns, os, ls, j);
    if j == |ns| - 1 {
      WeaveLast(parts, seps, j);
    } else {
      GroupPredicatesWoven(ns, os, ls, j + 1, lastTop);
      WeaveFrom(parts, seps, j);
      GroupStep(GroupPredicates(ns, os, ls, j, lastTop), GroupPredicates(ns, os, ls, j + 1, lastTop),
                parts[j], WordAt(ls, j), Weave(parts[j + 1..], seps[j + 1..]),
                " )" + (if lastTop then "" else " " + WordAt(ls, |ns| - 1)));
    }
  }

  /** One iteration of the outer loop: element `i` rendered, then its link
      unless it is the last element. */
  lemma PredicatesStep(cols: seq<Nested>, ops: seq<Nested>, links: seq<Nested>, i: nat)
    requires i < |cols|
    ensures Predicates(cols, ops, links, i)
         == " " + Render(cols, ops, links, i) + (if i == |cols| - 1 then "" else Link(cols, links, i))
            + Predicates(cols, ops, links, i + 1)
  {
    var last := i == |cols| - 1;
    var rest := Predicates(cols, ops, links, i + 1);
    match cols[i]
    case Leaf(c) =>
    case Group(ns) =>
      var g := GroupPredicates(ns, Words(ops, i), Words(links, i), 0, last);
      assert Predicates(cols, ops, links, i) == " (" + g + rest;
      if |ns| > 0 {
        var parts := GroupParts(ns, Words(ops, i));
        var seps := GroupJoints(Words(links, i), |ns| - 1);
        var close := if last then "" else " " + WordAt(Words(links, i), |ns| - 1);
        GroupPredicatesWoven(ns, Words(ops, i), Words(links, i), 0, last);
        assert parts[0..] == parts;
        assert seps[0..] == seps;
        GroupOpening(Weave(parts, seps), close, rest);
      } else {
        assert g == "";
        assert " (" == " " + "(";
      }
  }

  /** `" ("`, then the group's predicates and `" )"`, is the rendered group
      after a space. */
  lemma GroupOpening(w: string, close: string, rest: string)
    ensures " (" + (" " + w + (" )" + close)) + rest == " " + ("( " + w + " )") + close + rest
  {
    assert " (" + " " == " " + "( ";
  }

  lemma RendersAt(cols: seq<Nested>, ops: seq<Nested>, links: seq<Nested>, i: nat)
    requires i < |cols|
    ensures |Renders(cols, ops, links)| == |cols|
    ensures Renders(cols, ops, links)[i] == Render(cols, ops, links, i)
    ensures i < |cols| - 1 ==> |Joints(cols, links)| == |cols| - 1 && Joints(cols, links)[i] == Link(cols, links, i) + " "
  {
  }

  lemma WovenStep(here: string, next: string, r: string, l: string, w: string)
    requires here == " " + r + l + next
    requires next == " " + w
    ensures here == " " + (r + (l + " ") + w)
  {
    ConcatRegroup(" ", r, l, " ", w);
  }

  lemma {:induction false} PredicatesWoven(cols: seq<Nested>, ops: seq<Nested>, links: seq<Nested>, i: nat)
    requires i < |cols|
    ensures Predicates(cols, ops, links, i)
         == " " + Weave(Renders(cols, ops, links)[i..], Joints(cols, links)[i..])
    decreases |cols| - i
  {
    var rs := Renders(cols, ops, links);
    var js := Joints(cols, links);
    PredicatesStep(cols, ops, links, i);
    RendersAt(cols, ops, links, i);
    if i == |cols| - 1 {
      WeaveLast(rs, js, i);
    } else {
      PredicatesWoven(cols, ops, links, i + 1);
      WeaveFrom(rs, js, i);
      WovenStep(Predicates(cols, ops, links, i), Predicates(cols, ops, links, i + 1),
                rs[i], Link(cols, links, i), Weave(rs[i + 1..], js[i + 1..]));
    }
  }

  /** `prepareConditionSubQuery`. A missing `condition`, or one without
      `columns`, makes it throw; otherwise it returns `WHERE` and the
      predicates, never reading `condition.values`. */
  function Where(cond: Option<ConditionSpec>): (r: Result<string>)
    requires cond.Some? ==> Fits(cond.value)
    ensures r.Failure? <==> cond.None? || cond.value.columns.None?
    ensures r.Failure? ==> r.error == ConditionFailure
    ensures r.Success? ==> r.value == Woven(cond.value.columns.value, cond.value.operators, cond.value.logicalOperators)
  {
    if cond.None? || cond.value.columns.None? then Failure(ConditionFailure)
    else
      var cols := cond.value.columns.value;
      var ops := cond.value.operators;
      var links := cond.value.logicalOperators;
      if |cols| == 0 then Success("WHERE" + Predicates(cols, ops, links, 0))
      else
        PredicatesWoven(cols, ops, links, 0);
        assert Renders(cols, ops, links)[0..] == Renders(cols, ops, links);
        assert Joints(cols, links)[0..] == Joints(cols, links);
        Success("WHERE" + Predicates(cols, ops, links, 0))
  }

  // Placeholder counting.

  /** No word of a condition array contains `c`. */
  predicate ClearOf(ns: seq<Nested>, c: char)
  {
    forall i :: 0 <= i < |ns| ==> match ns[i]
      case Leaf(w) => c !in w
      case Group(ws) => Free(ws, c)
  }

  lemma PredicateCount(col: string, op: string)
    requires '?' !in col && '?' !in op
    ensures Count(" " + Predicate(col, op), '?') == 1
  {
    CountNone(" " + col + " " + op + " ", '?');
    CountConcat(" " + col + " " + op + " ", "?", '?');
    assert " " + Predicate(col, op) == (" " + col + " " + op + " ") + "?";
  }

  lemma {:induction false} GroupPredicatesCount(ns: seq<string>, os: seq<string>, ls: seq<string>, j: nat, lastTop: bool)
    requires j <= |ns|
    requires Free(ns, '?')
    requires Free(os, '?')
    requires Free(ls, '?')
    ensures Count(GroupPredicates(ns, os, ls, j, lastTop), '?') == |ns| - j
    decreases |ns| - j
  {
    if j < |ns| {
      var p := " " + Predicate(ns[j], WordAt(os, j));
      var tail := if j != |ns| - 1 then " " + WordAt(ls, j)
                  else " )" + (if !lastTop then " " + WordAt(ls, j) else "");
      PredicateCount(ns[j], WordAt(os, j));
      CountNone(tail, '?');
      GroupPredicatesCount(ns, os, ls, j + 1, lastTop);
      CountConcat(p, tail, '?');
      CountConcat(p + tail, GroupPredicates(ns, os, ls, j + 1, lastTop), '?');
    }
  }

  lemma {:induction false} PredicatesCount(cols: seq<Nested>, ops: seq<Nested>, links: seq<Nested>, i: nat)
    requires i <= |cols|
    requires ClearOf(cols, '?') && ClearOf(ops, '?') && ClearOf(links, '?')
    ensures Count(Predicates(cols, ops, links, i), '?') == Leaves(cols[i..])
    decreases |cols| - i
  {
    if i < |cols| {
      var last := i == |cols| - 1;
      PredicatesCount(cols, ops, links, i + 1);
      assert cols[i..][1..] == cols[i + 1..];
      var rest := Predicates(cols, ops, links, i + 1);
      match cols[i]
      case Leaf(c) =>
        var p := " " + Predicate(c, Word(ops, i));
        var tail := if !last then " " + Word(links, i) else "";
        PredicateCount(c, Word(ops, i));
        CountNone(tail, '?');
        CountConcat(p, tail, '?');
        CountConcat(p + tail, rest, '?');
      case Group(ns) =>
        var g := GroupPredicates(ns, Words(ops, i), Words(links, i), 0, last);
        GroupPredicatesCount(ns, Words(ops, i), Words(links, i), 0, last);
        CountNone(" (", '?');
        CountConcat(" (", g, '?');
        CountConcat(" (" + g, rest, '?');
    }
  }

  /** The clause holds exactly one `?` per leaf column, flat or grouped, when
      no column, operator or logical operator contains one itself. */
  lemma WherePlaceholders(cond: ConditionSpec)
    requires Fits(cond) && cond.columns.Some?
    requires ClearOf(cond.columns.value, '?') && ClearOf(cond.operators, '?') && ClearOf(cond.logicalOperators, '?')
    ensures Where(Some(cond)).Success?
    ensures Count(Where(Some(cond)).value, '?') == Leaves(cond.columns.value)
  {
    var cols := cond.columns.value;
    PredicatesCount(cols, cond.operators, cond.logicalOperators, 0);
    assert cols[0..] == cols;
    CountNone("WHERE", '?');
    CountConcat("WHERE", Predicates(cols, cond.operators, cond.logicalOperators, 0), '?');
  }
}

=== FILE: query.dfy ===
/**
  The query description a `Query` is constructed from, the translation it
  produces, and the shape conditions under which the builders read only
  entries that exist.

  Singleton arrays of the original input (`table`, `queryType`,
  `limit.count`) are plain strings here. A sub-object or field the builders
  test for, or whose absence makes them fail, is an `Option`.
 */
module QueryModel {

  datatype Option<+T> = None | Some(value: T)

  /** What a clause builder returns: its text, or the message it throws. */
  datatype Result<+T> = Success(value: T) | Failure(error: string)

  /** A value bound to a placeholder: a primitive, given by its literal
      text, or an array of values. */
  datatype Value = Scalar(literal: string) | Row(items: seq<Value>)

  /** One element of `condition.columns`, `condition.operators` or
      `condition.logicalOperators`: a string, or an array of strings that
      forms a parenthesised group. */
  datatype Nested = Leaf(word: string) | Group(words: seq<string>)

  datatype SelectSpec = SelectSpec(table: string, columns: Option<seq<string>>)

  datatype InsertSpec = InsertSpec(table: string, columns: Option<seq<string>>, values: Option<seq<Value>>)

  datatype UpdateSpec = UpdateSpec(table: string, columns: seq<string>, values: Option<seq<Value>>)

  datatype DropSpec = DropSpec(table: string)

  datatype DeleteSpec = DeleteSpec(table: string)

  /** `constraints` is the source's `create.constrains`. */
  datatype CreateSpec = CreateSpec(table: string, columns: seq<string>, types: seq<string>, constraints: Option<seq<string>>)

  datatype ConditionSpec = ConditionSpec(
    columns: Option<seq<Nested>>,
    operators: seq<Nested>,
    values: Option<seq<Value>>,
    logicalOperators: seq<Nested>)

  datatype OrderSpec = OrderSpec(columns: Option<seq<string>>, directions: Option<seq<string>>)

  datatype LimitSpec = LimitSpec(count: Option<string>)

  /** The input object; `queryType` is its `queryType[0]`. */
  datatype Description = Description(
    queryType: string,
    select: Option<SelectSpec>,
    insert: Option<InsertSpec>,
    update: Option<UpdateSpec>,
    drop: Option<DropSpec>,
    delete: Option<DeleteSpec>,
    create: Option<CreateSpec>,
    condition: Option<ConditionSpec>,
    order: Option<OrderSpec>,
    limit: Option<LimitSpec>)

  /** The state of a `Query` once its constructor returns: `sqlQuery`,
      `values` and `isValid`. */
  datatype Translation = Translation(text: string, values: seq<Value>, isValid: bool)

  /** A fresh `Query`'s fields, left untouched when no builder runs. */
  const Untranslated := Translation("", [], false)

  /** `s[i]` when it is a string, otherwise empty. */
  function Word(s: seq<Nested>, i: nat): string
  {
    if i < |s| && s[i].Leaf? then s[i].word else ""
  }

  /** `s[i]` when it is an array, otherwise empty. */
  function Words(s: seq<Nested>, i: nat): seq<string>
  {
    if i < |s| && s[i].Group? then s[i].words else []
  }

  function WordAt(ws: seq<string>, j: nat): string
  {
    if j < |ws| then ws[j] else ""
  }

  /** Number of `?` placeholders an element of `condition.columns` stands for. */
  function Width(n: Nested): nat
  {
    match n
    case Leaf(_) => 1
    case Group(ws) => |ws|
  }

  /** Leaf columns of a condition: flat columns plus the columns of every group. */
  function Leaves(cols: seq<Nested>): nat
  {
    if |cols| == 0 then 0 else Width(cols[0]) + Leaves(cols[1..])
  }

  /** How many logical operators a group of `width` columns reads: one after
      each column but the last, and one more to join the next element. */
  function NeededLinks(width: nat, last: bool): nat
  {
    if last && width > 0 then width - 1 else width
  }

  /** Element `i` of the condition finds every operator and logical operator
      the WHERE builder reads for it, with the matching nesting. */
  predicate ElementFits(cols: seq<Nested>, ops: seq<Nested>, links: seq<Nested>, i: nat)
    requires i < |cols|
  {
    var last := i == |cols| - 1;
    match cols[i]
    case Leaf(_) =>
      && i < |ops| && ops[i].Leaf?
      && (last || (i < |links| && links[i].Leaf?))
    case Group(ns) =>
      && |ns| <= |Words(ops, i)|
      && NeededLinks(|ns|, last) <= |Words(links, i)|
  }

  predicate Fits(c: ConditionSpec)
  {
    c.columns.Some? ==>
      forall i :: 0 <= i < |c.columns.value| ==> ElementFits(c.columns.value, c.operators, c.logicalOperators, i)
  }

  /** A given condition holds every entry the WHERE builder reads: what
      SELECT, UPDATE and DELETE need. */
  predicate ConditionFits(d: Description)
  {
    d.condition.Some? ==> Fits(d.condition.value)
  }

  /** A given `create` has a type for every column. */
  predicate CreateFits(d: Description)
  {
    d.create.Some? ==> |d.create.value.columns| <= |d.create.value.types|
  }

  /** The descriptions the model covers: the builder that `queryType`
      selects finds every array entry it reads, with the nesting it
      expects. Sub-objects that builder never reads may have any shape. */
  predicate WellFormed(d: Description)
  {
    && (d.queryType == "SELECT" || d.queryType == "UPDATE" || d.queryType == "DELETE" ==> ConditionFits(d))
    && (d.queryType == "CREATE" ==> CreateFits(d))
  }

  /** The description has a condition whose columns the builders can walk. */
  predicate HasConditionColumns(d: Description)
  {
    d.condition.Some? && d.condition.value.columns.Some?
  }

  predicate HasOrderColumns(d: Description)
  {
    d.order.Some? && d.order.value.columns.Some?
  }

  predicate HasLimitCount(d: Description)
  {
    d.limit.Some? && d.limit.value.count.Some?
  }
}

=== FILE: statements.dfy ===
/**
  The six statement builders of `Query`: `prepareSelectQuery`,
  `prepareInsertQuery`, `prepareUpdateQuery`, `prepareDropQuery`,
  `prepareDeleteQuery` and `prepareCreateQuery`.

  Each builder runs on a fresh `Query` (empty text, no values, not valid)
  and returns the fields as its `try` block leaves them: when a step throws,
  the text and values built so far are kept and `isValid` stays false.
 */
module Statements {
  import opened Strings
  import opened QueryModel
  import opened Clauses

  /** The text with ` ORDER BY ...` appended when `order.columns` exists. */
  function WithOrder(d: Description, text: string): string
  {
    if HasOrderColumns(d) then text + " " + Order(d.order.value.columns.value, d.order.value.directions)
    else text
  }

  /** The text with ` LIMIT <count>` appended when `limit.count` exists. */
  function WithLimit(d: Description, text: string): string
  {
    if HasLimitCount(d) then text + " " + Limit(d.limit.value.count.value)
    else text
  }

  // ---------------------------------------------------------------------
  // prepareSelectQuery
  // ---------------------------------------------------------------------

  /** `prepareSelectQuery`. Without a `select` object the column list falls
      back to `*` and reading the table throws; a condition whose `values`
      are missing throws after its WHERE text is in place. */
  function Select(d: Description): (r: Translation)
    requires ConditionFits(d)
    ensures r.isValid <==> d.select.Some? && (HasConditionColumns(d) ==> d.condition.value.values.Some?)
    ensures r.values
         == if d.select.Some? && HasConditionColumns(d) && d.condition.value.values.Some?
            then d.condition.value.values.value else []
    ensures d.select.None? ==> r.text == "SELECT *"
  {
    var head := "SELECT " + (if d.select.Some? && d.select.value.columns.Some?
                             then Braces(d.select.value.columns.value) else "*");
    if d.select.None? then Translation(head, [], false)
    else
      var text := head + " FROM " + d.select.value.table;
      if HasConditionColumns(d) then
        match Where(d.condition)
        case Failure(_) => Translation(text, [], false)
        case Success(w) =>
          match d.condition.value.values
          case None => Translation(text + " " + w, [], false)
          case Some(vs) => Translation(WithOrder(d, text + " " + w), vs, true)
      else Translation(WithOrder(d, text), [], true)
  }

  /** A completed SELECT: the column list or `*`, the table, then WHERE and
      ORDER BY exactly when their columns are given. */
  lemma SelectText(d: Description)
    requires ConditionFits(d) && d.select.Some?
    requires HasConditionColumns(d) ==> d.condition.value.values.Some?
    ensures var head := "SELECT " + (if d.select.value.columns.Some? then Braces(d.select.value.columns.value) else "*")
                        + " FROM " + d.select.value.table;
            var filtered := if HasConditionColumns(d)
                            then head + " " + Woven(d.condition.value.columns.value, d.condition.value.operators,
                                                    d.condition.value.logicalOperators)
                            else head;
            Select(d).text
            == if HasOrderColumns(d) then filtered + " " + Order(d.order.value.columns.value, d.order.value.directions)
               else filtered
  {
  }

  // ---------------------------------------------------------------------
  // prepareInsertQuery
  // ---------------------------------------------------------------------

  /** The elements of `insert.values` that are arrays, in order: what the
      scanning loop pushes into the row list. */
  function ArrayElements(vs: seq<Value>): (rows: seq<Value>)
    ensures forall v :: v in rows <==> v in vs && v.Row?
    ensures |rows| <= |vs|
    ensures (forall k :: 0 <= k < |vs| ==> vs[k].Row?) ==> rows == vs
    ensures (forall k :: 0 <= k < |vs| ==> !vs[k].Row?) ==> rows == []
    ensures |vs| == 1 ==> rows == if vs[0].Row? then vs else []
  {
    if |vs| == 0 then []
    else
      assert vs == [vs[0]] + vs[1..];
      (if vs[0].Row? then [vs[0]] else []) + ArrayElements(vs[1..])
  }

  /** The scan distributes over concatenation: together with the
      one-element case this fixes the order and the multiplicity of the
      array elements, duplicates included. */
  lemma {:induction false} ArrayElementsConcat(a: seq<Value>, b: seq<Value>)
    ensures ArrayElements(a + b) == ArrayElements(a) + ArrayElements(b)
  {
    if |a| > 0 {
      var head := if a[0].Row? then [a[0]] else [];
      assert (a + b)[0] == a[0] && (a + b)[1..] == a[1..] + b;
      ArrayElementsConcat(a[1..], b);
      assert ArrayElements(a + b) == head + (ArrayElements(a[1..]) + ArrayElements(b));
      assert ArrayElements(a) == head + ArrayElements(a[1..]);
    } else {
      assert a + b == b;
    }
  }

  /** `prepareInsertQuery`. The statement has a single placeholder; the
      bound values are one array of rows. A missing `values` leaves that
      array empty and makes the final copy throw. */
  function Insert(d: Description): (r: Translation)
    ensures r.isValid <==> d.insert.Some? && d.insert.value.values.Some?
    ensures d.insert.Some? ==> |r.values| == 1 && r.values[0].Row?
    ensures d.insert.None? ==> r == Translation("INSERT INTO", [], false)
  {
    if d.insert.None? then Translation("INSERT INTO", [], false)
    else
      var ins := d.insert.value;
      var text := "INSERT INTO " + ins.table
                  + (if ins.columns.Some? then Braces(ins.columns.value) else "")
                  + " VALUES ?";
      var rows := if ins.values.Some? then ArrayElements(ins.values.value) else [];
      if |rows| == 1 then Translation(text, [Row(rows)], true)
      else
        match ins.values
        case None => Translation(text, [Row(rows)], false)
        case Some(vs) => Translation(text, [Row(rows + [Row(vs)])], true)
  }

  lemma {:induction false} SingleArrayElement(vs: seq<Value>, k: nat)
    requires k < |vs| && vs[k].Row?
    requires forall m :: 0 <= m < |vs| && m != k ==> !vs[m].Row?
    ensures ArrayElements(vs) == [vs[k]]
  {
    if k > 0 {
      SingleArrayElement(vs[1..], k - 1);
    } else {
      assert forall m :: 0 <= m < |vs[1..]| ==> !vs[1..][m].Row? by {
        forall m | 0 <= m < |vs[1..]|
          ensures !vs[1..][m].Row?
        {
          assert vs[1..][m] == vs[m + 1];
        }
      }
    }
  }

  /** The row list of a completed INSERT: the flat `values` as the one row
      when no element is an array, that array alone when exactly one element
      is, and otherwise the array elements followed by a copy of `values`. */
  lemma InsertRows(d: Description)
    requires d.insert.Some? && d.insert.value.values.Some?
    ensures var vs := d.insert.value.values.value;
            var rows := Insert(d).values[0].items;
            && ((forall k :: 0 <= k < |vs| ==> !vs[k].Row?) ==> rows == [Row(vs)])
            && (forall k :: 0 <= k < |vs| && vs[k].Row? && (forall m :: 0 <= m < |vs| && m != k ==> !vs[m].Row?)
                  ==> rows == [vs[k]])
            && (|ArrayElements(vs)| != 1 ==> rows == ArrayElements(vs) + [Row(vs)])
  {
    var vs := d.insert.value.values.value;
    forall k | 0 <= k < |vs| && vs[k].Row? && (forall m :: 0 <= m < |vs| && m != k ==> !vs[m].Row?)
      ensures Insert(d).values[0].items == [vs[k]]
    {
      SingleArrayElement(vs, k);
    }
  }

  /** The INSERT statement text: table, column list with no space before it,
      and one placeholder for all the rows. */
  lemma InsertText(d: Description)
    requires d.insert.Some?
    ensures Insert(d).text
         == "INSERT INTO " + d.insert.value.table
            + (if d.insert.value.columns.Some? then Braces(d.insert.value.columns.value) else "")
            + " VALUES ?"
  {
  }

  // ---------------------------------------------------------------------
  // prepareUpdateQuery
  // ---------------------------------------------------------------------

  /** The `col=?` entries the SET loop joins. */
  function Assignments(cols: seq<string>): seq<string>
  {
    seq(|cols|, i requires 0 <= i < |cols| => cols[i] + "=?")
  }

  /** `prepareUpdateQuery`. The SET values are pushed before the condition
      is looked at, and the condition's values after them; when the
      condition's part throws, the SET values stay bound. */
  function Update(d: Description): (r: Translation)
    requires ConditionFits(d)
    ensures r.isValid
        <==> d.update.Some? && d.update.value.values.Some?
             && (HasConditionColumns(d) ==> d.condition.value.values.Some?)
    ensures r.isValid ==>
              r.values == d.update.value.values.value
                          + (if HasConditionColumns(d) then d.condition.value.values.value else [])
    ensures d.update.Some? && d.update.value.values.Some? && !r.isValid ==> r.values == d.update.value.values.value
    ensures d.update.Some? && d.update.value.values.None? ==> r.values == []
    ensures d.update.None? ==> r == Translation("UPDATE", [], false)
  {
    if d.update.None? then Translation("UPDATE", [], false)
    else
      var u := d.update.value;
      var text := "UPDATE " + u.table + " SET" + SpacedList(Assignments(u.columns));
      match u.values
      case None => Translation(text, [], false)
      case Some(uvs) =>
        if HasConditionColumns(d) then
          match Where(d.condition)
          case Failure(_) => Translation(text, uvs, false)
          case Success(w) =>
            match d.condition.value.values
            case None => Translation(text + " " + w, uvs, false)
            case Some(cvs) => Translation(WithLimit(d, text + " " + w), uvs + cvs, true)
        else Translation(WithLimit(d, text), uvs, true)
  }

  /** A completed UPDATE: `UPDATE t SET`, the assignments separated by
      `", "`, then WHERE and the inlined LIMIT when given. */
  lemma UpdateText(d: Description)
    requires ConditionFits(d) && d.update.Some? && d.update.value.values.Some?
    requires HasConditionColumns(d) ==> d.condition.value.values.Some?
    ensures var cols := d.update.value.columns;
            var head := "UPDATE " + d.update.value.table + " SET"
                        + (if |cols| == 0 then "" else " " + Join(Assignments(cols), ", "));
            var filtered := if HasConditionColumns(d)
                            then head + " " + Woven(d.condition.value.columns.value, d.condition.value.operators,
                                                    d.condition.value.logicalOperators)
                            else head;
            Update(d).text == if HasLimitCount(d) then filtered + " " + Limit(d.limit.value.count.value) else filtered
  {
  }

  // ---------------------------------------------------------------------
  // prepareDropQuery, prepareDeleteQuery
  // ---------------------------------------------------------------------

  /** `prepareDropQuery`: never binds a value and never sets `isValid`. */
  function Drop(d: Description): (r: Translation)
    ensures !r.isValid && r.values == []
    ensures r.text == if d.drop.Some? then "DROP " + d.drop.value.table else "DROP"
  {
    if d.drop.None? then Translation("DROP", [], false)
    else Translation("DROP " + d.drop.value.table, [], false)
  }

  /** `prepareDeleteQuery`. The WHERE builder is called whether or not a
      condition exists; when it throws, the text stays `DELETE FROM <table>`.
      `isValid` is never set. */
  function Delete(d: Description): (r: Translation)
    requires ConditionFits(d)
    ensures !r.isValid
    ensures r.values
         == if d.delete.Some? && HasConditionColumns(d) && d.condition.value.values.Some?
            then d.condition.value.values.value else []
    ensures d.delete.Some? && !HasConditionColumns(d) ==> r.text == "DELETE FROM " + d.delete.value.table
    ensures d.delete.Some? && HasConditionColumns(d) ==>
              r.text == "DELETE FROM " + d.delete.value.table + " "
                        + Woven(d.condition.value.columns.value, d.condition.value.operators, d.condition.value.logicalOperators)
  {
    if d.delete.None? then Translation("DELETE FROM", [], false)
    else
      var text := "DELETE FROM " + d.delete.value.table;
      match Where(d.condition)
      case Failure(_) => Translation(text, [], false)
      case Success(w) =>
        match d.condition.value.values
        case None => Translation(text + " " + w, [], false)
        case Some(vs) => Translation(text + " " + w, vs, false)
  }

  // ---------------------------------------------------------------------
  // prepareCreateQuery
  // ---------------------------------------------------------------------

  /** `column type [constraint]` for every column, the constraint only when
      `constrains` exists and its entry is a non-empty string. */
  function ColumnDefinitions(c: CreateSpec): seq<string>
    requires |c.columns| <= |c.types|
  {
    seq(|c.columns|, i requires 0 <= i < |c.columns| => c.columns[i] + " " + c.types[i] + Suffix(c.constraints, i))
  }

  /** `prepareCreateQuery`: the table followed by the parenthesised column
      definitions; binds no value and never sets `isValid`. */
  function Create(d: Description): (r: Translation)
    requires CreateFits(d)
    ensures !r.isValid && r.values == []
    ensures d.create.None? ==> r.text == "CREATE TABLE"
    ensures d.create.Some? && |d.create.value.columns| > 0 ==>
              r.text == "CREATE TABLE " + d.create.value.table + " (" + Join(ColumnDefinitions(d.create.value), ", ") + ")"
    ensures d.create.Some? && |d.create.value.columns| == 0 ==>
              r.text == "CREATE TABLE " + d.create.value.table + " ("
  {
    if d.create.None? then Translation("CREATE TABLE", [], false)
    else
      var c := d.create.value;
      Translation("CREATE TABLE " + c.table + " " + Braces(ColumnDefinitions(c)), [], false)
  }
}

=== FILE: strings.dfy ===
/**
  Character-sequence helpers shared by the clause and statement builders:
  counting a character, joining with one separator, and weaving with a
  separator per gap.
 */
module Strings {

  /** Number of occurrences of `c` in `s`. */
  function Count(s: string, c: char): nat
  {
    if |s| == 0 then 0
    else (if s[0] == c then 1 else 0) + Count(s[1..], c)
  }

  /** Sum of `Count(x, c)` over the elements `x` of `xs`. */
  function Total(xs: seq<string>, c: char): nat
  {
    if |xs| == 0 then 0 else Count(xs[0], c) + Total(xs[1..], c)
  }

  /** The elements of `xs` with `sep` between neighbours and nowhere else. */
  function Join(xs: seq<string>, sep: string): string
  {
    if |xs| == 0 then ""
    else if |xs| == 1 then xs[0]
    else xs[0] + sep + Join(xs[1..], sep)
  }

  /** `parts[0] + seps[0] + parts[1] + ... + seps[n - 2] + parts[n - 1]`:
      like `Join`, but every gap has its own separator. */
  function Weave(parts: seq<string>, seps: seq<string>): string
    requires |parts| <= |seps| + 1
  {
    if |parts| == 0 then ""
    else if |parts| == 1 then parts[0]
    else parts[0] + seps[0] + Weave(parts[1..], seps[1..])
  }

  lemma {:induction false} CountConcat(a: string, b: string, c: char)
    ensures Count(a + b, c) == Count(a, c) + Count(b, c)
  {
    if |a| == 0 {
      assert a + b == b;
    } else {
      assert (a + b)[1..] == a[1..] + b;
      CountConcat(a[1..], b, c);
    }
  }

  lemma {:induction false} CountAbsent(s: string, c: char)
    ensures Count(s, c) == 0 <==> c !in s
  {
    if |s| > 0 {
      CountAbsent(s[1..], c);
      assert s == [s[0]] + s[1..];
    }
  }

  /** The direction of `CountAbsent` the counting proofs use. */
  lemma CountNone(s: string, c: char)
    requires c !in s
    ensures Count(s, c) == 0
  {
    CountAbsent(s, c);
  }

  /** No element of `xs` contains `c`. */
  predicate Free(xs: seq<string>, c: char)
  {
    forall k :: 0 <= k < |xs| ==> c !in xs[k]
  }

  lemma {:induction false} TotalAbsent(xs: seq<string>, c: char)
    requires Free(xs, c)
    ensures Total(xs, c) == 0
  {
    if |xs| > 0 {
      CountAbsent(xs[0], c);
      TotalAbsent(xs[1..], c);
    }
  }

  /** Counting through a join: every element's occurrences plus one `sep`'s
      worth per gap. */
  lemma {:induction false} JoinCount(xs: seq<string>, sep: string, c: char)
    requires |xs| >= 1
    ensures Count(Join(xs, sep), c) == Total(xs, c) + (|xs| - 1) * Count(sep, c)
  {
    if |xs| > 1 {
      JoinCount(xs[1..], sep, c);
      CountConcat(xs[0], sep, c);
      CountConcat(xs[0] + sep, Join(xs[1..], sep), c);
    }
  }

  /** Weaving from position `i` on: element `i`, its separator, then the
      weave from `i + 1` on. */
  lemma WeaveFrom(parts: seq<string>, seps: seq<string>, i: nat)
    requires |parts| <= |seps| + 1
    requires i + 1 < |parts|
    ensures Weave(parts[i..], seps[i..]) == parts[i] + seps[i] + Weave(parts[i + 1..], seps[i + 1..])
  {
    assert parts[i..][1..] == parts[i + 1..];
    assert seps[i..][1..] == seps[i + 1..];
  }

  lemma ConcatRegroup(a: string, b: string, c: string, d: string, e: string)
    ensures a + b + c + (d + e) == a + (b + (c + d) + e)
  {
  }

  lemma WeaveLast(parts: seq<string>, seps: seq<string>, i: nat)
    requires |parts| <= |seps| + 1
    requires i + 1 == |parts|
    ensures Weave(parts[i..], seps[i..]) == parts[i]
  {
    assert parts[i..] == [parts[i]];
  }
}

=== FILE: translator.dfy ===
/**
  The `Query` constructor, which dispatches on `queryType[0]`, and the
  properties of a whole translation: which statements become valid, that
  every placeholder has its bound value, and that bound values never reach
  the statement text.
 */
module Translator {
  import opened Strings
  import opened QueryModel
  import opened Clauses
  import opened Statements

  const Kinds: set<string> := {"SELECT", "INSERT", "UPDATE", "DROP", "DELETE", "CREATE"}

  /** The `Query` constructor on a fresh instance. No input, or a query type
      no builder handles, leaves the instance as it was created. */
  function Translate(input: Option<Description>): (r: Translation)
    requires input.Some? ==> WellFormed(input.value)
    ensures input.None? ==> r == Untranslated
    ensures input.Some? && input.value.queryType !in Kinds ==> r == Untranslated
    ensures r.isValid ==> input.Some? && input.value.queryType in {"SELECT", "INSERT", "UPDATE"}
  {
    match input
    case None => Untranslated
    case Some(d) =>
      if d.queryType == "SELECT" then Select(d)
      else if d.queryType == "INSERT" then Insert(d)
      else if d.queryType == "UPDATE" then Update(d)
      else if d.queryType == "DROP" then Drop(d)
      else if d.queryType == "DELETE" then Delete(d)
      else if d.queryType == "CREATE" then Create(d)
      else Untranslated
  }

  /** `isValid` is true exactly when a SELECT, INSERT or UPDATE build runs
      to its end without throwing. */
  lemma ValidExactlyWhenCompleted(d: Description)
    requires WellFormed(d)
    ensures Translate(Some(d)).isValid
        <==> || (d.queryType == "SELECT" && d.select.Some?
                 && (HasConditionColumns(d) ==> d.condition.value.values.Some?))
             || (d.queryType == "INSERT" && d.insert.Some? && d.insert.value.values.Some?)
             || (d.queryType == "UPDATE" && d.update.Some? && d.update.value.values.Some?
                 && (HasConditionColumns(d) ==> d.condition.value.values.Some?))
  {
  }

  // ---------------------------------------------------------------------
  // Placeholders against bound values
  // ---------------------------------------------------------------------

  predicate UnmarkedIfPresent(ws: Option<seq<string>>)
  {
    ws.Some? ==> Free(ws.value, '?')
  }

  /** No name, type, operator or count that the builders copy into the text
      contains a `?` of its own. */
  predicate Clean(d: Description)
  {
    && (d.select.Some? ==> '?' !in d.select.value.table && UnmarkedIfPresent(d.select.value.columns))
    && (d.insert.Some? ==> '?' !in d.insert.value.table && UnmarkedIfPresent(d.insert.value.columns))
    && (d.update.Some? ==> '?' !in d.update.value.table && Free(d.update.value.columns, '?'))
    && (d.drop.Some? ==> '?' !in d.drop.value.table)
    && (d.delete.Some? ==> '?' !in d.delete.value.table)
    && (d.create.Some? ==>
          && '?' !in d.create.value.table && Free(d.create.value.columns, '?')
          && Free(d.create.value.types, '?') && UnmarkedIfPresent(d.create.value.constraints))
    && (d.condition.Some? ==>
          && (d.condition.value.columns.Some? ==> ClearOf(d.condition.value.columns.value, '?'))
          && ClearOf(d.condition.value.operators, '?') && ClearOf(d.condition.value.logicalOperators, '?'))
    && (d.order.Some? ==> UnmarkedIfPresent(d.order.value.columns) && UnmarkedIfPresent(d.order.value.directions))
    && (d.limit.Some? ==> d.limit.value.count.Some? ==> '?' !in d.limit.value.count.value)
  }

  /** The caller supplies one value per placeholder: one per leaf column of
      the condition, one per UPDATE column. */
  predicate Aligned(d: Description)
  {
    && (HasConditionColumns(d) ==>
          d.condition.value.values.Some?
          && |d.condition.value.values.value| == Leaves(d.condition.value.columns.value))
    && (d.update.Some? ==>
          d.update.value.values.Some? && |d.update.value.values.value| == |d.update.value.columns|)
  }

  lemma WhereCount(d: Description)
    requires ConditionFits(d) && Clean(d) && HasConditionColumns(d)
    ensures Where(d.condition).Success?
    ensures Count(Where(d.condition).value, '?') == Leaves(d.condition.value.columns.value)
  {
    WherePlaceholders(d.condition.value);
  }

  lemma OrderCount(d: Description, text: string)
    requires Clean(d)
    ensures Count(WithOrder(d, text), '?') == Count(text, '?')
  {
    if HasOrderColumns(d) {
      var o := Order(d.order.value.columns.value, d.order.value.directions);
      OrderUnmarked(d.order.value.columns.value, d.order.value.directions);
      CountConcat(text, " ", '?');
      CountNone(" ", '?');
      CountConcat(text + " ", o, '?');
    }
  }

  lemma LimitCount(d: Description, text: string)
    requires Clean(d)
    ensures Count(WithLimit(d, text), '?') == Count(text, '?')
  {
    if HasLimitCount(d) {
      var l := Limit(d.limit.value.count.value);
      CountNone(d.limit.value.count.value, '?');
      CountConcat(text, " ", '?');
      CountNone(" ", '?');
      CountConcat(text + " ", l, '?');
    }
  }

  /** `text + " " + w` holds the `?`s of both parts. */
  lemma SpacedConcatCount(text: string, w: string)
    ensures Count(text + " " + w, '?') == Count(text, '?') + Count(w, '?')
  {
    CountConcat(text, " ", '?');
    CountNone(" ", '?');
    CountConcat(text + " ", w, '?');
  }

  /** `SELECT <columns or *> FROM <table>` holds no placeholder. */
  lemma SelectHeadClean(cols: Option<seq<string>>, table: string)
    requires '?' !in table && UnmarkedIfPresent(cols)
    ensures '?' !in "SELECT " + (if cols.Some? then Braces(cols.value) else "*") + " FROM " + table
  {
    if cols.Some? {
      BracesClean(cols.value);
    }
  }

  lemma SelectCount(d: Description)
    requires ConditionFits(d) && Clean(d) && Aligned(d)
    ensures Count(Select(d).text, '?') == |Select(d).values|
  {
    if d.select.Some? {
      var head := "SELECT " + (if d.select.value.columns.Some? then Braces(d.select.value.columns.value) else "*")
                  + " FROM " + d.select.value.table;
      SelectHeadClean(d.select.value.columns, d.select.value.table);
      CountNone(head, '?');
      SelectText(d);
      if HasConditionColumns(d) {
        WhereCount(d);
        var w := Where(d.condition).value;
        SpacedConcatCount(head, w);
        OrderCount(d, head + " " + w);
      } else {
        OrderCount(d, head);
      }
    } else {
      CountNone("SELECT *", '?');
    }
  }

  lemma AssignmentsCount(cols: seq<string>)
    requires Free(cols, '?')
    ensures Total(Assignments(cols), '?') == |cols|
  {
    if |cols| > 0 {
      AssignmentsCount(cols[1..]);
      assert Assignments(cols)[1..] == Assignments(cols[1..]);
      CountNone(cols[0], '?');
      CountConcat(cols[0], "=?", '?');
      assert ("=?")[1..] == "?";
      assert Count("=?", '?') == 1;
    }
  }

  lemma UpdateCount(d: Description)
    requires ConditionFits(d) && Clean(d) && Aligned(d)
    ensures Count(Update(d).text, '?') == |Update(d).values|
  {
    if d.update.Some? {
      var u := d.update.value;
      var head := "UPDATE " + u.table + " SET" + SpacedList(Assignments(u.columns));
      assert Count(head, '?') == |u.columns| by {
        CountNone("UPDATE " + u.table + " SET", '?');
        SpacedListCount(Assignments(u.columns), '?');
        AssignmentsCount(u.columns);
        CountConcat("UPDATE " + u.table + " SET", SpacedList(Assignments(u.columns)), '?');
      }
      UpdateText(d);
      if HasConditionColumns(d) {
        WhereCount(d);
        var w := Where(d.condition).value;
        SpacedConcatCount(head, w);
        LimitCount(d, head + " " + w);
      } else {
        LimitCount(d, head);
      }
    } else {
      CountNone("UPDATE", '?');
    }
  }

  /** `INSERT INTO <table>[(<columns>)]` holds no placeholder. */
  lemma InsertHeadClean(table: string, cols: Option<seq<string>>)
    requires '?' !in table && UnmarkedIfPresent(cols)
    ensures '?' !in "INSERT INTO " + table + (if cols.Some? then Braces(cols.value) else "")
  {
    if cols.Some? {
      BracesClean(cols.value);
    }
  }

  /** ` VALUES ?` adds the statement's only placeholder. */
  lemma ValuesPlaceholder(head: string)
    requires '?' !in head
    ensures Count(head + " VALUES ?", '?') == 1
  {
    CountNone(head, '?');
    CountConcat(head, " VALUES ?", '?');
  }

  lemma InsertCount(d: Description)
    requires Clean(d)
    ensures Count(Insert(d).text, '?') == |Insert(d).values|
  {
    if d.insert.Some? {
      var ins := d.insert.value;
      InsertHeadClean(ins.table, ins.columns);
      ValuesPlaceholder("INSERT INTO " + ins.table + (if ins.columns.Some? then Braces(ins.columns.value) else ""));
      InsertText(d);
    } else {
      CountNone("INSERT INTO", '?');
    }
  }

  lemma DeleteCount(d: Description)
    requires ConditionFits(d) && Clean(d) && Aligned(d)
    ensures Count(Delete(d).text, '?') == |Delete(d).values|
  {
    if d.delete.Some? {
      var text := "DELETE FROM " + d.delete.value.table;
      CountNone(text, '?');
      if HasConditionColumns(d) {
        WhereCount(d);
        SpacedConcatCount(text, Where(d.condition).value);
      }
    } else {
      CountNone("DELETE FROM", '?');
    }
  }

  lemma DefinitionsUnmarked(c: CreateSpec)
    requires |c.columns| <= |c.types|
    requires Free(c.columns, '?') && Free(c.types, '?') && UnmarkedIfPresent(c.constraints)
    ensures Free(ColumnDefinitions(c), '?')
  {
    var defs := ColumnDefinitions(c);
    forall k | 0 <= k < |defs|
      ensures '?' !in defs[k]
    {
      assert defs[k] == c.columns[k] + " " + c.types[k] + Suffix(c.constraints, k);
    }
  }

  lemma CreateCount(d: Description)
    requires CreateFits(d) && Clean(d)
    ensures Count(Create(d).text, '?') == 0
  {
    if d.create.Some? {
      var c := d.create.value;
      DefinitionsUnmarked(c);
      BracesClean(ColumnDefinitions(c));
      CountNone("CREATE TABLE " + c.table + " " + Braces(ColumnDefinitions(c)), '?');
    } else {
      CountNone("CREATE TABLE", '?');
    }
  }

  /** Every statement carries exactly as many `?` placeholders as it has
      top-level bound values: one per leaf condition column and UPDATE
      column, and for INSERT one placeholder for its single array of rows.
      It holds on the failure paths `Aligned` admits: a missing statement
      object, a missing `insert.values`, and DELETE without a condition. */
  lemma PlaceholdersMatchValues(d: Description)
    requires WellFormed(d) && Clean(d) && Aligned(d)
    ensures Count(Translate(Some(d)).text, '?') == |Translate(Some(d)).values|
  {
    if d.queryType == "SELECT" {
      SelectCount(d);
    } else if d.queryType == "INSERT" {
      InsertCount(d);
    } else if d.queryType == "UPDATE" {
      UpdateCount(d);
    } else if d.queryType == "DROP" {
      if d.drop.Some? {
        CountNone("DROP " + d.drop.value.table, '?');
      } else {
        CountNone("DROP", '?');
      }
    } else if d.queryType == "DELETE" {
      DeleteCount(d);
    } else if d.queryType == "CREATE" {
      CreateCount(d);
    }
  }

  /** Outside `Aligned` the balance breaks: a SELECT whose condition has no
      `values` keeps the WHERE placeholders in its text, because spreading
      the missing array throws after the clause is appended, and binds
      nothing. */
  lemma MissingValuesKeepPlaceholders(d: Description)
    requires WellFormed(d) && Clean(d) && d.queryType == "SELECT" && d.select.Some?
    requires HasConditionColumns(d) && d.condition.value.values.None?
    ensures Count(Translate(Some(d)).text, '?') == Leaves(d.condition.value.columns.value)
    ensures Translate(Some(d)).values == [] && !Translate(Some(d)).isValid
  {
    var head := "SELECT " + (if d.select.value.columns.Some? then Braces(d.select.value.columns.value) else "*")
                + " FROM " + d.select.value.table;
    SelectHeadClean(d.select.value.columns, d.select.value.table);
    CountNone(head, '?');
    WhereCount(d);
    SpacedConcatCount(head, Where(d.condition).value);
    assert Select(d).text == head + " " + Where(d.condition).value;
  }

  /** DROP, INSERT and CREATE never read the condition: replacing it, by
      one of any shape, changes neither the coverage nor the translation. */
  lemma ConditionUnread(d: Description, c: Option<ConditionSpec>)
    requires WellFormed(d)
    requires d.queryType == "DROP" || d.queryType == "INSERT" || d.queryType == "CREATE"
    ensures WellFormed(d.(condition := c))
    ensures Translate(Some(d.(condition := c))) == Translate(Some(d))
  {
  }

  // ---------------------------------------------------------------------
  // Bound values stay out of the text
  // ---------------------------------------------------------------------

  function Erased(vs: Option<seq<Value>>): Option<seq<Value>>
  {
    if vs.Some? then Some([]) else None
  }

  /** The description with every bound-value array emptied (a missing one
      stays missing). */
  function EraseValues(d: Description): Description
  {
    d.(insert := if d.insert.Some? then Some(d.insert.value.(values := Erased(d.insert.value.values))) else None,
       update := if d.update.Some? then Some(d.update.value.(values := Erased(d.update.value.values))) else None,
       condition := if d.condition.Some? then Some(d.condition.value.(values := Erased(d.condition.value.values))) else None)
  }

  /** The two conditions agree on everything but their bound values. */
  predicate SameFilter(d: Description, e: Description)
  {
    && d.condition.Some? == e.condition.Some?
    && (d.condition.Some? ==>
          var c := d.condition.value;
          var c' := e.condition.value;
          && c.columns == c'.columns && c.operators == c'.operators
          && c.logicalOperators == c'.logicalOperators
          && c.values.Some? == c'.values.Some?)
  }

  lemma WhereIgnoresValues(d: Description, e: Description)
    requires ConditionFits(d) && ConditionFits(e) && SameFilter(d, e)
    ensures HasConditionColumns(d) == HasConditionColumns(e)
    ensures Where(d.condition) == Where(e.condition)
  {
  }

  lemma SelectIgnoresValues(d: Description, e: Description)
    requires ConditionFits(d) && ConditionFits(e) && SameFilter(d, e)
    requires d.select == e.select && d.order == e.order
    ensures Select(d).text == Select(e).text && Select(d).isValid == Select(e).isValid
  {
    WhereIgnoresValues(d, e);
  }

  lemma UpdateIgnoresValues(d: Description, e: Description)
    requires ConditionFits(d) && ConditionFits(e) && SameFilter(d, e)
    requires d.update.Some? == e.update.Some? && d.limit == e.limit
    requires d.update.Some? ==>
               && d.update.value.table == e.update.value.table
               && d.update.value.columns == e.update.value.columns
               && d.update.value.values.Some? == e.update.value.values.Some?
    ensures Update(d).text == Update(e).text && Update(d).isValid == Update(e).isValid
  {
    WhereIgnoresValues(d, e);
  }

  lemma DeleteIgnoresValues(d: Description, e: Description)
    requires ConditionFits(d) && ConditionFits(e) && SameFilter(d, e)
    requires d.delete == e.delete
    ensures Delete(d).text == Delete(e).text && Delete(d).isValid == Delete(e).isValid
  {
    WhereIgnoresValues(d, e);
  }

  /** Two descriptions that differ only in their bound values translate to
      the same statement text with the same validity: no value is ever
      written into the text. */
  lemma BoundValuesStayOutOfText(d: Description, e: Description)
    requires WellFormed(d) && WellFormed(e)
    requires EraseValues(d) == EraseValues(e)
    ensures Translate(Some(d)).text == Translate(Some(e)).text
    ensures Translate(Some(d)).isValid == Translate(Some(e)).isValid
  {
    assert d.queryType == e.queryType;
    assert SameFilter(d, e) by {
      assert EraseValues(d).condition == EraseValues(e).condition;
    }
    if d.queryType == "SELECT" {
      SelectIgnoresValues(d, e);
    } else if d.queryType == "INSERT" {
      assert EraseValues(d).insert == EraseValues(e).insert;
      if d.insert.Some? {
        InsertText(d);
        InsertText(e);
      }
    } else if d.queryType == "UPDATE" {
      assert EraseValues(d).update == EraseValues(e).update;
      UpdateIgnoresValues(d, e);
    } else if d.queryType == "DELETE" {
      DeleteIgnoresValues(d, e);
    }
  }
}
